=== FILE: README.md ===
# Star Wars blog REST API — a Dafny model

The system is a small Flask/SQLAlchemy CRUD API over five tables: users,
characters ("people"), planets, vehicles and favorites. Its logic is the
branching inside the request handlers and the constraints the schema
declares. This project models that logic. The database becomes one
immutable `Store` value:

- an ordered sequence of users;
- a map from id to record for characters, planets and vehicles;
- a sequence of favorites in row order.

Each handler becomes a pure function from the store, the path id and the
request body to a `Reply` holding the status, the JSON body and the new store.
The two list endpoints over keyed tables, `GetAllPeople` and `GetAllPlanets`,
are methods instead: `ListValues` picks the keys one at a time with `:|`, so
the item order is left open.

Modules, one per concern:

- `Wire` (`wire.dfy`): the JSON values handlers return, request bodies, and `Option` for nullable columns.
- `Models` (`models.dfy`): the five record types, each `serialize` paired with a reader that inverts it, and the field-by-field patch the update endpoints apply.
- `Storage` (`storage.dfy`): the store and its integrity invariant `Valid`. Also "current user" as the named function `CurrentUser`, favorite lookup, the user table's NOT NULL and UNIQUE constraints, and the cascade that deletes a user's favorites.
- `Resources` (`resources.dfy`): `/people`, `/planets` and `/users`.
- `Favorites` (`favorites.dfy`): `/users/favorites`, `/favorite/planet/{id}` and `/favorite/people/{id}`. The planet and character variants differ only in the target column and the messages, so one function takes a `Target`.
- `Config` (`config.dfy`): the `DATABASE_URL` normalisation.
- `Api` (`api.dfy`): facts that span several endpoints.

Modelling decisions:

- The database assigns ids. Each create takes that id as a parameter `newId` and requires it to be unused.
- Path ids are natural numbers, because Flask's `int` converter matches no negative numbers.
- "Current user" is `User.query.first()`. That query has no ORDER BY, so the model takes the head of the user sequence. It makes no claim about the database's ordering.
- `filter_by(...).first()` likewise becomes the first matching favorite in store order.
- `DATABASE_URL` is an `Option<string>` argument. Reading the environment is left out.

## Model

| member | source | states |
|---|---|---|
| Models.UserJson | src/models.py:18-22 | A user serializes to exactly the keys `id` and `email`, and both can be read back |
| Models.UserJsonHidesCredentials | src/models.py:18-22 | Users that agree on id and email serialize identically, so password and active flag never reach the response |
| Models.CharacterJson | src/models.py:35-41 | Character serialization has exactly id, name, appearance and affiliation, and reading it back gives the same record |
| Models.PlanetJson | src/models.py:55-62 | Planet serialization has exactly id, name, appearance, terrain and climate, and reading it back gives the same record |
| Models.VehicleJson | src/models.py:76-83 | Vehicle serialization has exactly id, name, appearance, affiliation and dimensions, and reading it back gives the same record |
| Models.FavoriteJson | src/models.py:100-107 | Favorite serialization has id, user_id and all three target ids (unset ones as null), and reading it back gives the same row |
| Models.FavoriteJsonInjective | src/models.py:100-107 | Two different favorite rows never serialize to the same JSON |
| Models.PatchCharacter | src/app.py:264-266 | After the update loop, a field listed and present in the body has the body's value; every other field and the id are unchanged |
| Models.PatchPlanet | src/app.py:220-222 | After the update loop, a field listed and present in the body has the body's value; every other field and the id are unchanged |
| Storage.Valid | src/models.py:11-16 | The schema's constraints over a whole store, except the target foreign keys: user ids and emails unique, each keyed record stored under its own id, every favorite's `user_id` naming an existing user, favorite ids unique (src/models.py:90-93 for the favorite columns) |
| Storage.Matches | src/app.py:132-133 | `filter_by(user_id=..., <target>_id=...)` for one row: the owner is the user and the row's target column holds the target id |
| Storage.FavoritesOf | src/app.py:118 | `current_user.favorites`: exactly the stored favorites owned by the user, never more rows than the table holds |
| Storage.CurrentUser | src/app.py:124-126 | There is no current user exactly when the user table is empty; otherwise it is the first user in the table, whose id is one a favorite may reference |
| Storage.FindFavorite | src/app.py:132-134 | The lookup returns the first row matching user and target, or reports that no row matches |
| Storage.FavoritesWhere | src/app.py:118 | The selected rows are exactly the stored favorites whose owner is (or is not) the given user |
| Storage.FavoritesPartition | src/models.py:16 | Splitting the favorites by owner neither loses nor duplicates any row (multiset equality) |
| Storage.RemoveAt | src/app.py:175-176 | Deleting one row shortens the table by one, removes exactly that row, and keeps the others in order |
| Storage.InsertUser | src/models.py:11-14 | A user row is inserted exactly when email, password and active flag are all given and the email is unused; a missing email is a NOT NULL error; insertion keeps the store valid |
| Storage.DeleteUser | src/models.py:16 | Deleting a user removes every favorite with that user id and no other favorite (as a multiset), and leaves the other tables alone |
| Storage.DeleteUserKeepsValid | src/models.py:16 | After the cascade the store is still valid: user ids and emails stay distinct, and every remaining favorite points at a remaining user |
| Resources.GetAllPeople | src/app.py:76-80 | GET /people returns 200 and one item per character; every character appears and every item reads back as a stored character |
| Resources.GetAllPlanets | src/app.py:91-95 | GET /planets returns 200 and one item per planet; every planet appears and every item reads back as a stored planet |
| Resources.GetUsers | src/app.py:106-109 | GET /users returns each user's id and email in order, with no other key |
| Resources.GetOnePerson | src/app.py:83-88 | Status 200 exactly when the id is stored, with exactly that character's serialization as body; otherwise 404 `Character not found`; the store is untouched |
| Resources.CreateCharacter | src/app.py:240-254 | 201 exactly when name, appearance and affiliation are all in the body; then exactly one character is added under the new id with the body's values, the reply body is exactly its serialization, and nothing else changes; otherwise 400 `Missing fields` and the store is unchanged |
| Resources.UpdateCharacter | src/app.py:257-269 | Absent id gives 404 and no change; otherwise only the fields present in the body change, the id and other characters keep their values, and the reply body is exactly the new record's serialization |
| Resources.DeleteCharacter | src/app.py:272-280 | Absent id gives 404 and no change; otherwise exactly that character is removed and the other characters, users, planets and vehicles stay as they were, and so does every favorite that does not reference the character; no favorite is added, and each remaining one differs from an original row at most in its character column |
| Resources.GetOnePlanet | src/app.py:98-103 | Status 200 exactly when the id is stored, with exactly that planet's serialization as body; otherwise 404 `Planet not found`; the store is untouched |
| Resources.CreatePlanet | src/app.py:196-211 | 201 exactly when name, appearance, terrain and climate are all in the body; then exactly one planet is added under the new id with the body's values, the reply body is exactly its serialization, and nothing else changes; otherwise 400 `Missing fields` and the store is unchanged |
| Resources.UpdatePlanet | src/app.py:213-225 | Absent id gives 404 and no change; otherwise only the fields present in the body change, the id and other planets keep their values, and the reply body is exactly the new record's serialization |
| Resources.DeletePlanet | src/app.py:228-236 | Absent id gives 404 and no change; otherwise exactly that planet is removed and the other planets, users, characters and vehicles stay as they were, and so does every favorite that does not reference the planet; no favorite is added, and each remaining one differs from an original row at most in its planet column |
| Resources.CreateThenGetPlanet | src/app.py:196-211 | A planet created from a complete body is then fetched under its new id with the body's values |
| Resources.CreateThenGetPerson | src/app.py:240-254 | A character created from a complete body is then fetched under its new id with the body's values |
| Resources.UpdatePlanetIdempotent | src/app.py:213-225 | Sending the same planet patch twice has the same effect as sending it once |
| Resources.UpdateCharacterIdempotent | src/app.py:257-269 | Sending the same character patch twice has the same effect as sending it once |
| Resources.EmptyPatchChangesNothing | src/app.py:220-222 | A patch with an empty body leaves the store exactly as it was, whether or not the id is stored |
| Resources.CharacterHandlersKeepValid | src/app.py:240-280 | Creating, patching and deleting characters keep the store valid |
| Resources.CreatePlanetKeepsValid | src/app.py:196-211 | Creating a planet keeps the store valid |
| Resources.UpdatePlanetKeepsValid | src/app.py:213-225 | Patching a planet keeps the store valid |
| Resources.DeletePlanetKeepsValid | src/app.py:228-236 | Deleting a planet keeps the store valid |
| Favorites.NewFavorite | src/app.py:137 | The new row has the assigned id, belongs to the user, names the target, and leaves the other target columns null |
| Favorites.SerializeFavorites | src/app.py:118 | One item per row; every row appears, and every item reads back as one of the rows |
| Favorites.GetUserFavorites | src/app.py:112-119 | No users gives 404 `No users found`; otherwise 200 listing every favorite of the current user and only those, one item per row; the store is untouched |
| Favorites.AddFavorite | src/app.py:122-161 | The checks run in order (no user 404, missing target 404, duplicate 400 with `msg`) and each failure leaves the store unchanged. 201 exactly when all checks pass; then exactly one row is appended for the current user and that target, with the other targets null, the reply body is exactly that row's serialization, and nothing else changes |
| Favorites.DeleteFavorite | src/app.py:164-193 | No user gives 404 `No users found`; no matching row gives 404 `Favorite not found`; otherwise exactly the first matching row is removed and every other row stays in order |
| Favorites.AddFavoriteTwice | src/app.py:132-137 | Adding the same favorite a second time returns 400 `already in favorites` and leaves the store as the first add left it |
| Favorites.AddThenDeleteFavorite | src/app.py:137-177 | Deleting a favorite that was just added returns 200 and restores the store exactly |
| Favorites.AddFavoriteKeepsNoDuplicates | src/app.py:132-140 | If no user has two favorites on one target, adding a favorite keeps it that way |
| Favorites.DeleteFavoriteKeepsNoDuplicates | src/app.py:170-176 | If no user has two favorites on one target, deleting a favorite keeps it that way |
| Favorites.DeleteFavoriteRemovesPair | src/app.py:170-177 | Without duplicates, a successful delete leaves the current user with no favorite on that target |
| Favorites.AddFavoriteKeepsValid | src/models.py:90 | The new favorite references an existing user and has an unused id, so the store stays valid |
| Favorites.DeleteFavoriteKeepsValid | src/models.py:90 | Deleting a favorite keeps the store valid |
| Favorites.FavoriteTargetsUnconstrained | src/models.py:90-93 | Any combination of the three nullable targets, none included, is a valid row if its user exists and each target it sets names an existing row |
| Config.DatabaseUri | src/app.py:49-54 | An unset variable gives `sqlite:////tmp/test.db`; a set one never contains `postgres://` afterwards, and is returned unchanged when it had none |
| Config.ReplaceAll | src/app.py:51-52 | Python's `str.replace`: replacing a pattern with one at least as long never shortens the text, and one of equal length keeps the length |
| Config.ReplaceFirstOccurrence | src/app.py:51-52 | The first `postgres://` becomes `postgresql://`, the text before it is kept and the text after it is rewritten in turn |
| Config.DatabaseUriRewritesEachOccurrence | src/app.py:49-54 | For a set variable, each `postgres://` in it becomes `postgresql://` with the text around it kept |
| Config.ReplaceAbsent | src/app.py:51-52 | `replace` returns its input when the pattern does not occur in it |
| Config.ReplaceLeavesNoLegacyScheme | src/app.py:51-52 | After replacing every `postgres://` with `postgresql://`, no `postgres://` remains anywhere |
| Config.LegacySchemeRewritten | src/app.py:49-52 | `postgres://` followed by a rest that does not contain it becomes `postgresql://` followed by the same rest |
| Api.ResourceHandlersKeepCurrentUser | src/app.py:196-280 | No character or planet endpoint changes who the current user is |
| Api.FavoriteHandlersKeepCurrentUser | src/app.py:122-193 | No favorites endpoint changes who the current user is |
| Api.DeletingOnlyUserEmptiesFavorites | src/app.py:112-116 | After the only user is deleted, GET /users/favorites answers 404 `No users found` |
| Api.DeletedUserFavoritesGone | src/models.py:16 | After a user is deleted, GET /users/favorites lists none of that user's favorites, whoever the current user now is |

## Left out

- Flask wiring is not modelled: app construction (built twice in `src/app.py`), CORS, Migrate, the admin setup, the APIException handler, `app.run` and reading `PORT`. These are framework plumbing and I/O.
- `GET /` (the sitemap) is not modelled. It is built by `generate_sitemap`, and `utils` is not part of this model.
- SQLAlchemy sessions, queries and commits are not modelled. The store is an abstract value, and a handler's single commit is the new store it returns.
- Database id assignment is a parameter: each create takes the new id as `newId`, required to be unused.
- Storage.Valid: the foreign keys on the favorite's `character_id`, `planet_id` and `vehicle_id` (src/models.py:91-93) are not part of the invariant. The delete endpoints leave favorites that reference the deleted row unspecified, so the invariant cannot promise those references stay valid.
- Resources.DeleteCharacter: states nothing about favorites that reference the deleted character. The code leaves that to the ORM's default. The model keeps those favorites as they were but does not promise it.
- Resources.DeletePlanet: states nothing about favorites that reference the deleted planet, for the same reason.
- Resources.GetAllPeople: the item order is left open, because `Character.query.all()` has no ORDER BY.
- Resources.GetAllPlanets: the item order is left open, because `Planet.query.all()` has no ORDER BY.
- Favorites.DeleteFavorite: removes the first matching row in store order. `.first()` without ORDER BY may pick any matching row; this makes a difference only when duplicates exist.
- Favorites.GetUserFavorites: lists rows in store order. The relationship's loading order is not specified.
- Concurrency is not modelled. Two concurrent duplicate-favorite requests can both pass the check and both insert. Handlers here run one at a time.
- A body that parses to a JSON value other than an object is not modelled. For `null`, a number or a boolean, the `field in data` test raises and the reply is a 500. For an array or a string, `in` becomes an element or substring test. A create replies 400 unless every required name is found; when all are, `data['name']` raises and the reply is a 500. An update replies 200 with the record unchanged when no field name is found; when one is, `data[field]` raises and the reply is a 500. The model's body is always a key/value map.
- Body values are modelled as strings. The code copies them into string columns without a type check.
- Resources.CreateCharacter: a JSON `null` for a required field is not modelled. In the code it passes the `field in data` check (src/app.py:244). The commit then breaks a NOT NULL column (src/models.py:29-31). That error is not handled, so the code replies 500 where the model replies 201. Body values in the model are never null.
- Resources.CreatePlanet: the same `null` case (src/app.py:200, src/models.py:48-51); the code replies 500 where the model replies 201.
- Resources.UpdateCharacter: the same `null` case for a field in the body (src/app.py:265); the code replies 500 where the model replies 200.
- Resources.UpdatePlanet: the same `null` case for a field in the body (src/app.py:221); the code replies 500 where the model replies 200.
- `String(120)` length limits are not modelled. Whether they are enforced depends on the database backend.
- JSON encoding of responses is not modelled; responses are `Json` values.
- Vehicles have no endpoint in the code. They appear only as a record, its serialization and a favorite target.
- User rows are written by no endpoint. `Storage.InsertUser` and `Storage.DeleteUser` model only the schema's constraints and cascade.

=== FILE: api.dfy ===
/**
 Facts that span several endpoints: no endpoint writes the user table, so
 the current user is the same before and after every request; and the
 cascade on user deletion as seen through GET /users/favorites.
 */
module Api {
  import opened Wire
  import opened Models
  import opened Storage
  import Resources
  import Favorites

  /** The character and planet endpoints leave the user table, and with
      it the current user, as it was. */
  lemma ResourceHandlersKeepCurrentUser(s: Store, id: nat, body: Body, newId: nat)
    ensures newId !in s.characters ==> CurrentUser(Resources.CreateCharacter(s, body, newId).store) == CurrentUser(s)
    ensures newId !in s.planets ==> CurrentUser(Resources.CreatePlanet(s, body, newId).store) == CurrentUser(s)
    ensures CurrentUser(Resources.UpdateCharacter(s, id, body).store) == CurrentUser(s)
    ensures CurrentUser(Resources.UpdatePlanet(s, id, body).store) == CurrentUser(s)
    ensures CurrentUser(Resources.DeleteCharacter(s, id).store) == CurrentUser(s)
    ensures CurrentUser(Resources.DeletePlanet(s, id).store) == CurrentUser(s)
  {
  }

  /** The favorites endpoints leave the user table, and with it the current
      user, as it was: a favorite request never changes who "the user" is. */
  lemma FavoriteHandlersKeepCurrentUser(s: Store, newId: nat, t: Target)
    ensures FreshFavoriteId(s, newId) ==> CurrentUser(Favorites.AddFavorite(s, t, newId).store) == CurrentUser(s)
    ensures CurrentUser(Favorites.DeleteFavorite(s, t).store) == CurrentUser(s)
  {
  }

  /** Once the only user is deleted, GET /users/favorites answers 404. */
  lemma DeletingOnlyUserEmptiesFavorites(s: Store)
    requires |s.users| == 1
    ensures var r := Favorites.GetUserFavorites(DeleteUser(s, s.users[0].id));
      r.status == 404 && r.body == ErrorBody("No users found")
  {
  }

  /** With other users left, no favorite of the deleted user is listed any
      more, whoever is now the current user. */
  lemma DeletedUserFavoritesGone(s: Store, uid: int)
    ensures var r := Favorites.GetUserFavorites(DeleteUser(s, uid));
      r.status == 200 ==>
        && r.body.Arr?
        && forall j :: j in r.body.items ==> exists f :: f in s.favorites && ReadFavorite(j) == Some(f) && f.userId != uid
  {
  }
}

=== FILE: config.dfy ===
/**
 The database connection string: the `DATABASE_URL` environment variable
 with the legacy `postgres://` scheme rewritten to `postgresql://`, or a
 local SQLite file when the variable is unset. Reading the environment is
 left to the caller; the variable arrives as an `Option`.
 */
module Config {
  import opened Wire

  const FallbackUri: string := "sqlite:////tmp/test.db"
  const LegacyScheme: string := "postgres://"
  const StandardScheme: string := "postgresql://"

  predicate StartsWith(s: string, prefix: string)
  {
    |prefix| <= |s| && s[..|prefix|] == prefix
  }

  /** `pat` appears somewhere in `s`. */
  predicate Occurs(pat: string, s: string)
  {
    exists i :: 0 <= i <= |s| && StartsWith(s[i..], pat)
  }

  /** Python's `s.replace(pat, rep)` for a non-empty `pat`: scanning left to
      right, each occurrence is replaced and scanning resumes after it. */
  function ReplaceAll(s: string, pat: string, rep: string): (r: string)
    requires |pat| > 0
    ensures |pat| <= |rep| ==> |s| <= |r|
    ensures |pat| == |rep| ==> |r| == |s|
    decreases |s|
  {
    if |s| < |pat| then s
    else if StartsWith(s, pat) then rep + ReplaceAll(s[|pat|..], pat, rep)
    else [s[0]] + ReplaceAll(s[1..], pat, rep)
  }

  /** The value of `SQLALCHEMY_DATABASE_URI` for a given `DATABASE_URL`. */
  function DatabaseUri(env: Option<string>): (uri: string)
    ensures env.None? ==> uri == FallbackUri
    ensures env.Some? ==> !Occurs(LegacyScheme, uri)
    ensures env.Some? && !Occurs(LegacyScheme, env.value) ==> uri == env.value
  {
    match env
    case None => FallbackUri
    case Some(url) =>
      ReplaceLeavesNoLegacyScheme(url);
      ReplaceAbsentScheme(url);
      ReplaceAll(url, LegacyScheme, StandardScheme)
  }

  // ---------------------------------------------------------------------------
  // Properties of the rewrite.

  /** With nothing to replace, `replace` returns its input. */
  lemma {:induction false} ReplaceAbsent(s: string, pat: string, rep: string)
    requires |pat| > 0 && !Occurs(pat, s)
    ensures ReplaceAll(s, pat, rep) == s
    decreases |s|
  {
    if |s| >= |pat| {
      assert s[0..] == s;
      forall i | 0 <= i <= |s[1..]| ensures !StartsWith(s[1..][i..], pat) {
        assert s[1..][i..] == s[i + 1..];
      }
      ReplaceAbsent(s[1..], pat, rep);
    }
  }

  /** `ReplaceAbsent` for the scheme rewrite, as an implication. */
  lemma ReplaceAbsentScheme(url: string)
    ensures !Occurs(LegacyScheme, url) ==> ReplaceAll(url, LegacyScheme, StandardScheme) == url
  {
    if !Occurs(LegacyScheme, url) {
      ReplaceAbsent(url, LegacyScheme, StandardScheme);
    }
  }

  lemma StartsWithCons(c: char, t: string, p: string)
    requires |p| > 0
    ensures StartsWith([c] + t, p) <==> c == p[0] && StartsWith(t, p[1..])
  {
  }

  /** If the output starts with a string that avoids the first character of
      `rep`, the input already started with it: replacement never creates
      such a prefix. */
  lemma {:induction false} ReplacePrefixReflected(t: string, pat: string, rep: string, w: string)
    requires |pat| > 0 && |rep| > 0
    requires forall k :: 0 <= k < |w| ==> w[k] != rep[0]
    ensures StartsWith(ReplaceAll(t, pat, rep), w) ==> StartsWith(t, w)
    decreases |t|
  {
    if |t| >= |pat| && |w| > 0 {
      var r := ReplaceAll(t, pat, rep);
      if StartsWith(t, pat) {
        assert r[0] == rep[0];
      } else {
        var r' := ReplaceAll(t[1..], pat, rep);
        assert r == [t[0]] + r';
        StartsWithCons(t[0], r', w);
        ReplacePrefixReflected(t[1..], pat, rep, w[1..]);
        assert t == [t[0]] + t[1..];
        StartsWithCons(t[0], t[1..], w);
      }
    }
  }

  /** The rewritten URL never mentions the legacy scheme: `postgresql://`
      does not contain `postgres://`, and no replacement can combine with
      its neighbours to form one. */
  lemma {:induction false} ReplaceLeavesNoLegacyScheme(s: string)
    ensures !Occurs(LegacyScheme, ReplaceAll(s, LegacyScheme, StandardScheme))
    decreases |s|
  {
    var r := ReplaceAll(s, LegacyScheme, StandardScheme);
    if |s| >= |LegacyScheme| {
      if StartsWith(s, LegacyScheme) {
        var rest := ReplaceAll(s[11..], LegacyScheme, StandardScheme);
        ReplaceLeavesNoLegacyScheme(s[11..]);
        assert r == StandardScheme + rest;
        forall i | 0 <= i <= |r| ensures !StartsWith(r[i..], LegacyScheme) {
          if i >= 13 {
            assert r[i..] == rest[i - 13..];
          } else if i == 0 {
            assert |r| < 11 || r[..11][8] == 'q';
          } else if |r[i..]| >= 11 {
            assert r[i..][0] == StandardScheme[i];
          }
        }
      } else {
        var rest := ReplaceAll(s[1..], LegacyScheme, StandardScheme);
        ReplaceLeavesNoLegacyScheme(s[1..]);
        assert r == [s[0]] + rest;
        forall i | 1 <= i <= |r| ensures !StartsWith(r[i..], LegacyScheme) {
          assert r[i..] == rest[i - 1..];
        }
        StartsWithCons(s[0], rest, LegacyScheme);
        ReplacePrefixReflected(s[1..], LegacyScheme, StandardScheme, LegacyScheme[1..]);
        assert s == [s[0]] + s[1..];
        StartsWithCons(s[0], s[1..], LegacyScheme);
        assert !StartsWith(r[0..], LegacyScheme) by {
          assert r[0..] == r;
        }
      }
    } else {
      forall i | 0 <= i <= |r| ensures !StartsWith(r[i..], LegacyScheme) {
      }
    }
  }

  /** The first occurrence of the legacy scheme becomes the standard one;
      the text before it is kept and the text after it is rewritten in turn.
      `x + LegacyScheme[..10]` holding no occurrence says that none starts
      inside `x`, so the one after `x` is the first. With `ReplaceAbsent`
      this fixes the result for every input. */
  lemma {:induction false} ReplaceFirstOccurrence(x: string, y: string)
    requires !Occurs(LegacyScheme, x + LegacyScheme[..10])
    ensures ReplaceAll(x + LegacyScheme + y, LegacyScheme, StandardScheme)
         == x + StandardScheme + ReplaceAll(y, LegacyScheme, StandardScheme)
    decreases |x|
  {
    var s := x + LegacyScheme + y;
    if |x| == 0 {
      assert s[..11] == LegacyScheme;
      assert s[11..] == y;
    } else {
      var w := x + LegacyScheme[..10];
      assert s[..11] == w[..11];
      NoOccurrenceAtFront(w, LegacyScheme);
      assert !StartsWith(s, LegacyScheme);
      assert s[1..] == x[1..] + LegacyScheme + y;
      assert w[1..] == x[1..] + LegacyScheme[..10];
      NoOccurrenceInTail(w, LegacyScheme);
      ReplaceFirstOccurrence(x[1..], y);
      assert x == [x[0]] + x[1..];
    }
  }

  /** No occurrence anywhere means none at the front. */
  lemma NoOccurrenceAtFront(w: string, pat: string)
    requires !Occurs(pat, w)
    ensures !StartsWith(w, pat)
  {
    assert w[0..] == w;
  }

  /** No occurrence in `w` means none in its tail either. */
  lemma NoOccurrenceInTail(w: string, pat: string)
    requires |w| > 0 && !Occurs(pat, w)
    ensures !Occurs(pat, w[1..])
  {
    forall i | 0 <= i <= |w[1..]| ensures !StartsWith(w[1..][i..], pat) {
      assert w[1..][i..] == w[i + 1..];
    }
  }

  /** The same fact about the configured URI: each `postgres://` becomes
      `postgresql://` and the text around it is kept. */
  lemma DatabaseUriRewritesEachOccurrence(x: string, y: string)
    requires !Occurs(LegacyScheme, x + LegacyScheme[..10])
    ensures DatabaseUri(Some(x + LegacyScheme + y)) == x + StandardScheme + DatabaseUri(Some(y))
  {
    ReplaceFirstOccurrence(x, y);
  }

  /** The usual case: a URL with the legacy scheme in front, and nowhere
      else, gets the standard scheme and keeps the rest. */
  lemma LegacySchemeRewritten(rest: string)
    requires !Occurs(LegacyScheme, rest)
    ensures DatabaseUri(Some(LegacyScheme + rest)) == StandardScheme + rest
  {
    var s := LegacyScheme + rest;
    assert s[..11] == LegacyScheme;
    assert s[11..] == rest;
    ReplaceAbsent(rest, LegacyScheme, StandardScheme);
  }
}

=== FILE: favorites.dfy ===
/**
 The favorites endpoints. Every one of them acts for the current user
 (the first user row) and runs its checks in a fixed order: no user, then
 missing target, then duplicate, then the write.

 The planet and character variants differ only in the target column and
 in their messages, so one function with a `Target` models each pair.
 */
module Favorites {
  import opened Wire
  import opened Models
  import opened Storage

  /** The row the target names exists in its table. */
  predicate TargetExists(s: Store, t: Target)
  {
    match t
    case OnCharacter(c) => c in s.characters
    case OnPlanet(p) => p in s.planets
  }

  function NotFoundMessage(t: Target): string
  {
    if t.OnPlanet? then "Planet not found" else "Character not found"
  }

  function DuplicateMessage(t: Target): string
  {
    if t.OnPlanet? then "Planet already in favorites" else "Character already in favorites"
  }

  function DeletedMessage(t: Target): string
  {
    if t.OnPlanet? then "Favorite planet deleted" else "Favorite character deleted"
  }

  /** `Favorite(user_id=uid, <target>_id=id)`: the other targets stay null. */
  function NewFavorite(id: int, uid: int, t: Target): (f: Favorite)
    ensures f.id == id && Matches(f, uid, t)
    ensures f.vehicleId.None?
    ensures t.OnPlanet? ==> f.characterId.None?
    ensures t.OnCharacter? ==> f.planetId.None?
  {
    match t
    case OnCharacter(c) => Favorite(id, uid, Some(c), None, None)
    case OnPlanet(p) => Favorite(id, uid, None, Some(p), None)
  }

  /** The current user already has a favorite on this target. */
  ghost predicate AlreadyFavorite(s: Store, t: Target)
    requires |s.users| > 0
  {
    exists i :: 0 <= i < |s.favorites| && Matches(s.favorites[i], s.users[0].id, t)
  }

  /** The serialized rows, one item per row and in the same order. */
  function SerializeFavorites(favs: seq<Favorite>): (items: seq<Json>)
    ensures |items| == |favs|
    ensures forall f :: f in favs ==> FavoriteJson(f) in items
    ensures forall j :: j in items ==> exists f :: f in favs && ReadFavorite(j) == Some(f)
  {
    if |favs| == 0 then []
    else [FavoriteJson(favs[0])] + SerializeFavorites(favs[1..])
  }

  /** GET /users/favorites: the current user's favorites, and nobody else's. */
  function GetUserFavorites(s: Store): (r: Reply)
    ensures r.store == s
    ensures |s.users| == 0 ==> r.status == 404 && r.body == ErrorBody("No users found")
    ensures |s.users| > 0 ==> r.status == 200 && r.body.Arr?
    ensures |s.users| > 0 ==> |r.body.items| == |FavoritesOf(s.favorites, s.users[0].id)|
    ensures |s.users| > 0 ==> forall f :: f in s.favorites && f.userId == s.users[0].id ==> FavoriteJson(f) in r.body.items
    ensures |s.users| > 0 ==> forall j :: j in r.body.items ==>
      exists f :: f in s.favorites && ReadFavorite(j) == Some(f) && f.userId == s.users[0].id
  {
    match CurrentUser(s)
    case None => Reply(404, ErrorBody("No users found"), s)
    case Some(u) => Reply(200, Arr(SerializeFavorites(FavoritesOf(s.favorites, u.id))), s)
  }

  /** POST /favorite/planet/{id} and POST /favorite/people/{id}. `newId` is
      the key the database assigns to the new row. */
  function AddFavorite(s: Store, t: Target, newId: int): (r: Reply)
    requires FreshFavoriteId(s, newId)
    ensures |s.users| == 0 ==> r == Reply(404, ErrorBody("No users found"), s)
    ensures |s.users| > 0 && !TargetExists(s, t) ==> r == Reply(404, ErrorBody(NotFoundMessage(t)), s)
    ensures |s.users| > 0 && TargetExists(s, t) && AlreadyFavorite(s, t) ==>
      r == Reply(400, MsgBody(DuplicateMessage(t)), s)
    ensures r.status == 201 <==> |s.users| > 0 && TargetExists(s, t) && !AlreadyFavorite(s, t)
    ensures r.status == 201 ==>
      && |r.store.favorites| == |s.favorites| + 1
      && r.store.favorites[..|s.favorites|] == s.favorites
      && r.store.(favorites := s.favorites) == s
      && var f := r.store.favorites[|s.favorites|];
      && f.id == newId
      && Matches(f, s.users[0].id, t)
      && f.vehicleId.None?
      && (t.OnPlanet? ==> f.characterId.None?)
      && (t.OnCharacter? ==> f.planetId.None?)
      && r.body == FavoriteJson(f)
  {
    match CurrentUser(s)
    case None => Reply(404, ErrorBody("No users found"), s)
    case Some(u) =>
      if !TargetExists(s, t) then Reply(404, ErrorBody(NotFoundMessage(t)), s)
      else if FindFavorite(s.favorites, u.id, t, 0).Some? then Reply(400, MsgBody(DuplicateMessage(t)), s)
      else
        var f := NewFavorite(newId, u.id, t);
        assert (s.favorites + [f])[..|s.favorites|] == s.favorites;
        Reply(201, FavoriteJson(f), s.(favorites := s.favorites + [f]))
  }

  /** DELETE /favorite/planet/{id} and DELETE /favorite/people/{id}: the
      first matching row of the current user goes, every other row stays. */
  function DeleteFavorite(s: Store, t: Target): (r: Reply)
    ensures |s.users| == 0 ==> r == Reply(404, ErrorBody("No users found"), s)
    ensures r.status == 200 <==> |s.users| > 0 && AlreadyFavorite(s, t)
    ensures |s.users| > 0 && !AlreadyFavorite(s, t) ==> r == Reply(404, ErrorBody("Favorite not found"), s)
    ensures r.status == 200 ==>
      && r.body == MsgBody(DeletedMessage(t))
      && r.store.(favorites := s.favorites) == s
      && |r.store.favorites| == |s.favorites| - 1
      && (exists i :: 0 <= i < |s.favorites|
            && Matches(s.favorites[i], s.users[0].id, t)
            && (forall j :: 0 <= j < i ==> !Matches(s.favorites[j], s.users[0].id, t))
            && r.store.favorites == s.favorites[..i] + s.favorites[i + 1..])
  {
    match CurrentUser(s)
    case None => Reply(404, ErrorBody("No users found"), s)
    case Some(u) =>
      match FindFavorite(s.favorites, u.id, t, 0)
      case None => Reply(404, ErrorBody("Favorite not found"), s)
      case Some(i) => Reply(200, MsgBody(DeletedMessage(t)), s.(favorites := RemoveAt(s.favorites, i)))
  }

  // ---------------------------------------------------------------------------
  // Properties across calls.

  /** Adding the same favorite a second time is refused and writes nothing. */
  lemma AddFavoriteTwice(s: Store, t: Target, id1: int, id2: int)
    requires FreshFavoriteId(s, id1)
    requires AddFavorite(s, t, id1).status == 201
    requires FreshFavoriteId(AddFavorite(s, t, id1).store, id2)
    ensures var s1 := AddFavorite(s, t, id1).store;
      AddFavorite(s1, t, id2) == Reply(400, MsgBody(DuplicateMessage(t)), s1)
  {
  }

  /** Deleting a favorite just added restores the store exactly. */
  lemma AddThenDeleteFavorite(s: Store, t: Target, newId: int)
    requires FreshFavoriteId(s, newId)
    requires AddFavorite(s, t, newId).status == 201
    ensures DeleteFavorite(AddFavorite(s, t, newId).store, t) == Reply(200, MsgBody(DeletedMessage(t)), s)
  {
  }

  /** The API never stores two favorites of one user on one target. */
  ghost predicate NoDuplicateFavorites(favs: seq<Favorite>)
  {
    forall i, j :: 0 <= i < j < |favs| && favs[i].userId == favs[j].userId ==>
      && (favs[i].planetId.None? || favs[i].planetId != favs[j].planetId)
      && (favs[i].characterId.None? || favs[i].characterId != favs[j].characterId)
  }

  lemma AddFavoriteKeepsNoDuplicates(s: Store, t: Target, newId: int)
    requires FreshFavoriteId(s, newId)
    requires NoDuplicateFavorites(s.favorites)
    ensures NoDuplicateFavorites(AddFavorite(s, t, newId).store.favorites)
  {
  }

  lemma DeleteFavoriteKeepsNoDuplicates(s: Store, t: Target)
    requires NoDuplicateFavorites(s.favorites)
    ensures NoDuplicateFavorites(DeleteFavorite(s, t).store.favorites)
  {
  }

  /** With no duplicates, a successful delete leaves the current user with
      no favorite on that target. */
  lemma DeleteFavoriteRemovesPair(s: Store, t: Target)
    requires NoDuplicateFavorites(s.favorites)
    requires |s.users| > 0 && AlreadyFavorite(s, t)
    ensures var r := DeleteFavorite(s, t);
      forall k :: 0 <= k < |r.store.favorites| ==> !Matches(r.store.favorites[k], s.users[0].id, t)
  {
  }

  /** Adding a favorite keeps the schema's constraints: the new row points
      at an existing user and has an unused id. */
  lemma AddFavoriteKeepsValid(s: Store, t: Target, newId: int)
    requires Valid(s) && FreshFavoriteId(s, newId)
    ensures Valid(AddFavorite(s, t, newId).store)
  {
  }

  /** Deleting a favorite keeps the schema's constraints. */
  lemma DeleteFavoriteKeepsValid(s: Store, t: Target)
    requires Valid(s)
    ensures Valid(DeleteFavorite(s, t).store)
  {
  }

  /** At schema level the three target columns are independent: any
      combination of them, none included, naming existing rows, is a row
      the store accepts. */
  lemma FavoriteTargetsUnconstrained(s: Store, id: int, c: Option<int>, p: Option<int>, v: Option<int>)
    requires Valid(s) && |s.users| > 0 && FreshFavoriteId(s, id)
    requires c.Some? ==> c.value in s.characters
    requires p.Some? ==> p.value in s.planets
    requires v.Some? ==> v.value in s.vehicles
    ensures Valid(s.(favorites := s.favorites + [Favorite(id, s.users[0].id, c, p, v)]))
  {
  }
}

=== FILE: models.dfy ===
/**
 The five record types of the schema, their `serialize` projections, and
 the field-by-field patch that the update endpoints apply.

 Every serialization is paired with a reader that recovers the record from
 the JSON it produced; the round trip is the contract of the serializer,
 so a serializer that drops or renames a field cannot satisfy it.
 */
module Models {
  import opened Wire

  /** A user. `email` is unique and required; `password` and `isActive`
      are stored but never serialized. */
  datatype User = User(id: int, email: string, password: string, isActive: bool)

  datatype Character = Character(id: int, name: string, appearance: string, affiliation: string)

  datatype Planet = Planet(id: int, name: string, appearance: string, terrain: string, climate: string)

  /** No endpoint exposes vehicles; they exist as a favoritable target. */
  datatype Vehicle = Vehicle(id: int, name: string, appearance: string, affiliation: string, dimensions: string)

  /** A favorite always belongs to a user; each target column is nullable
      on its own, so any combination of targets is a legal row. */
  datatype Favorite = Favorite(
    id: int,
    userId: int,
    characterId: Option<int>,
    planetId: Option<int>,
    vehicleId: Option<int>)

  /** The body fields `create_character` requires and `update_character` may patch. */
  const CharacterFields: seq<string> := ["name", "appearance", "affiliation"]

  /** The body fields `create_planet` requires and `update_planet` may patch. */
  const PlanetFields: seq<string> := ["name", "appearance", "terrain", "climate"]

  // ---------------------------------------------------------------------------
  // Readers: the inverse direction of each serialization.

  function IntAt(j: Json, key: string): Option<int>
  {
    if j.Obj? && key in j.fields && j.fields[key].Int? then Some(j.fields[key].i) else None
  }

  function StrAt(j: Json, key: string): Option<string>
  {
    if j.Obj? && key in j.fields && j.fields[key].Str? then Some(j.fields[key].s) else None
  }

  function OptIntAt(j: Json, key: string): Option<Option<int>>
  {
    if j.Obj? && key in j.fields then ReadOptInt(j.fields[key]) else None
  }

  /** The public view of a user: its id and email, and nothing else. */
  function ReadUserView(j: Json): Option<(int, string)>
  {
    match (IntAt(j, "id"), StrAt(j, "email"))
    case (Some(id), Some(email)) => Some((id, email))
    case _ => None
  }

  function ReadCharacter(j: Json): Option<Character>
  {
    match (IntAt(j, "id"), StrAt(j, "name"), StrAt(j, "appearance"), StrAt(j, "affiliation"))
    case (Some(id), Some(n), Some(a), Some(f)) => Some(Character(id, n, a, f))
    case _ => None
  }

  function ReadPlanet(j: Json): Option<Planet>
  {
    match (IntAt(j, "id"), StrAt(j, "name"), StrAt(j, "appearance"), StrAt(j, "terrain"), StrAt(j, "climate"))
    case (Some(id), Some(n), Some(a), Some(t), Some(c)) => Some(Planet(id, n, a, t, c))
    case _ => None
  }

  function ReadVehicle(j: Json): Option<Vehicle>
  {
    match (IntAt(j, "id"), StrAt(j, "name"), StrAt(j, "appearance"), StrAt(j, "affiliation"), StrAt(j, "dimensions"))
    case (Some(id), Some(n), Some(a), Some(f), Some(d)) => Some(Vehicle(id, n, a, f, d))
    case _ => None
  }

  function ReadFavorite(j: Json): Option<Favorite>
  {
    match (IntAt(j, "id"), IntAt(j, "user_id"), OptIntAt(j, "character_id"), OptIntAt(j, "planet_id"), OptIntAt(j, "vehicle_id"))
    case (Some(id), Some(u), Some(c), Some(p), Some(v)) => Some(Favorite(id, u, c, p, v))
    case _ => None
  }

  // ---------------------------------------------------------------------------
  // Serialization.

  /** `User.serialize`: exactly the keys id and email. */
  function UserJson(u: User): (j: Json)
    ensures j.Obj? && j.fields.Keys == {"id", "email"}
    ensures ReadUserView(j) == Some((u.id, u.email))
  {
    Obj(map["id" := Int(u.id), "email" := Str(u.email)])
  }

  /** The serialized form of a user does not depend on its password or
      active flag: two users that agree on id and email look the same. */
  lemma UserJsonHidesCredentials(u: User, v: User)
    requires u.id == v.id && u.email == v.email
    ensures UserJson(u) == UserJson(v)
  {
  }

  /** `Character.serialize`: a lossless projection of every column. */
  function CharacterJson(c: Character): (j: Json)
    ensures j.Obj? && j.fields.Keys == {"id", "name", "appearance", "affiliation"}
    ensures ReadCharacter(j) == Some(c)
  {
    Obj(map[
      "id" := Int(c.id),
      "name" := Str(c.name),
      "appearance" := Str(c.appearance),
      "affiliation" := Str(c.affiliation)])
  }

  /** `Planet.serialize`: a lossless projection of every column. */
  function PlanetJson(p: Planet): (j: Json)
    ensures j.Obj? && j.fields.Keys == {"id", "name", "appearance", "terrain", "climate"}
    ensures ReadPlanet(j) == Some(p)
  {
    Obj(map[
      "id" := Int(p.id),
      "name" := Str(p.name),
      "appearance" := Str(p.appearance),
      "terrain" := Str(p.terrain),
      "climate" := Str(p.climate)])
  }

  /** `Vehicle.serialize`: a lossless projection of every column. */
  function VehicleJson(v: Vehicle): (j: Json)
    ensures j.Obj? && j.fields.Keys == {"id", "name", "appearance", "affiliation", "dimensions"}
    ensures ReadVehicle(j) == Some(v)
  {
    Obj(map[
      "id" := Int(v.id),
      "name" := Str(v.name),
      "appearance" := Str(v.appearance),
      "affiliation" := Str(v.affiliation),
      "dimensions" := Str(v.dimensions)])
  }

  /** `Favorite.serialize`: the owner and all three targets, unset ones as null. */
  function FavoriteJson(f: Favorite): (j: Json)
    ensures j.Obj? && j.fields.Keys == {"id", "user_id", "character_id", "planet_id", "vehicle_id"}
    ensures j.fields["user_id"] == Int(f.userId)
    ensures ReadFavorite(j) == Some(f)
  {
    Obj(map[
      "id" := Int(f.id),
      "user_id" := Int(f.userId),
      "character_id" := OptInt(f.characterId),
      "planet_id" := OptInt(f.planetId),
      "vehicle_id" := OptInt(f.vehicleId)])
  }

  /** Two different records never serialize to the same JSON. */
  lemma FavoriteJsonInjective(f: Favorite, g: Favorite)
    requires FavoriteJson(f) == FavoriteJson(g)
    ensures f == g
  {
  }

  // ---------------------------------------------------------------------------
  // Partial updates.

  function SetCharacterField(c: Character, field: string, value: string): Character
  {
    if field == "name" then c.(name := value)
    else if field == "appearance" then c.(appearance := value)
    else if field == "affiliation" then c.(affiliation := value)
    else c
  }

  /** The update loop of `update_character`: for each listed field present
      in the body, overwrite the column with the body's value. */
  function PatchCharacter(c: Character, body: Body, fields: seq<string>): (d: Character)
    ensures d.id == c.id
    ensures d.name == (if "name" in fields && "name" in body then body["name"] else c.name)
    ensures d.appearance == (if "appearance" in fields && "appearance" in body then body["appearance"] else c.appearance)
    ensures d.affiliation == (if "affiliation" in fields && "affiliation" in body then body["affiliation"] else c.affiliation)
    decreases |fields|
  {
    if |fields| == 0 then c
    else
      var f := fields[0];
      var c' := if f in body then SetCharacterField(c, f, body[f]) else c;
      PatchCharacter(c', body, fields[1..])
  }

  function SetPlanetField(p: Planet, field: string, value: string): Planet
  {
    if field == "name" then p.(name := value)
    else if field == "appearance" then p.(appearance := value)
    else if field == "terrain" then p.(terrain := value)
    else if field == "climate" then p.(climate := value)
    else p
  }

  /** The update loop of `update_planet`: for each listed field present in
      the body, overwrite the column with the body's value. */
  function PatchPlanet(p: Planet, body: Body, fields: seq<string>): (q: Planet)
    ensures q.id == p.id
    ensures q.name == (if "name" in fields && "name" in body then body["name"] else p.name)
    ensures q.appearance == (if "appearance" in fields && "appearance" in body then body["appearance"] else p.appearance)
    ensures q.terrain == (if "terrain" in fields && "terrain" in body then body["terrain"] else p.terrain)
    ensures q.climate == (if "climate" in fields && "climate" in body then body["climate"] else p.climate)
    decreases |fields|
  {
    if |fields| == 0 then p
    else
      var f := fields[0];
      var p' := if f in body then SetPlanetField(p, f, body[f]) else p;
      PatchPlanet(p', body, fields[1..])
  }
}

=== FILE: resources.dfy ===
/**
 The `/people` and `/planets` endpoints: list, fetch, create, patch and
 delete over the character and planet tables, and `/users`.

 Each handler is a pure transition from a store, the path id and the
 request body to a status, a JSON body and the new store.
 */
module Resources {
  import opened Wire
  import opened Models
  import opened Storage

  // ---------------------------------------------------------------------------
  // Listing.

  /** `[x.serialize() for x in X.query.all()]` over a keyed table. The query
      has no ORDER BY, so the order of the items is left open. */
  method ListValues<T>(m: map<int, T>, serialize: T -> Json) returns (items: seq<Json>)
    ensures |items| == |m|
    ensures forall k :: k in m ==> serialize(m[k]) in items
    ensures forall j :: j in items ==> exists k :: k in m && j == serialize(m[k])
  {
    items := [];
    var rest := m.Keys;
    while |rest| > 0
      invariant rest <= m.Keys
      invariant |items| + |rest| == |m.Keys|
      invariant forall k :: k in m.Keys - rest ==> serialize(m[k]) in items
      invariant forall j :: j in items ==> exists k :: k in m && j == serialize(m[k])
      decreases |rest|
    {
      NonEmptyHasKey(rest);
      var k :| k in rest;
      items := items + [serialize(m[k])];
      rest := rest - {k};
    }
  }

  lemma NonEmptyHasKey(keys: set<int>)
    requires |keys| > 0
    ensures exists k :: k in keys
  {
    if forall k :: k !in keys {
      assert false;
    }
  }

  /** GET /people: every character, each once, serialized. */
  method GetAllPeople(s: Store) returns (r: Reply)
    ensures r.status == 200 && r.store == s && r.body.Arr?
    ensures |r.body.items| == |s.characters|
    ensures forall k :: k in s.characters ==> CharacterJson(s.characters[k]) in r.body.items
    ensures forall j :: j in r.body.items ==> exists k :: k in s.characters && ReadCharacter(j) == Some(s.characters[k])
  {
    var items := ListValues(s.characters, CharacterJson);
    r := Reply(200, Arr(items), s);
  }

  /** GET /planets: every planet, each once, serialized. */
  method GetAllPlanets(s: Store) returns (r: Reply)
    ensures r.status == 200 && r.store == s && r.body.Arr?
    ensures |r.body.items| == |s.planets|
    ensures forall k :: k in s.planets ==> PlanetJson(s.planets[k]) in r.body.items
    ensures forall j :: j in r.body.items ==> exists k :: k in s.planets && ReadPlanet(j) == Some(s.planets[k])
  {
    var items := ListValues(s.planets, PlanetJson);
    r := Reply(200, Arr(items), s);
  }

  /** GET /users: the public view of every user, in store order; no
      password or active flag appears in any item. */
  function GetUsers(s: Store): (r: Reply)
    ensures r.status == 200 && r.store == s && r.body.Arr?
    ensures |r.body.items| == |s.users|
    ensures forall i :: 0 <= i < |s.users| ==>
      && r.body.items[i].Obj? && r.body.items[i].fields.Keys == {"id", "email"}
      && ReadUserView(r.body.items[i]) == Some((s.users[i].id, s.users[i].email))
  {
    Reply(200, Arr(seq(|s.users|, i requires 0 <= i < |s.users| => UserJson(s.users[i]))), s)
  }

  // ---------------------------------------------------------------------------
  // Characters (`/people`).

  /** GET /people/{id}. */
  function GetOnePerson(s: Store, id: nat): (r: Reply)
    ensures r.store == s
    ensures r.status == 200 <==> id in s.characters
    ensures id in s.characters ==> r.body == CharacterJson(s.characters[id])
    ensures id !in s.characters ==> r.status == 404 && r.body == ErrorBody("Character not found")
  {
    if id !in s.characters then Reply(404, ErrorBody("Character not found"), s)
    else Reply(200, CharacterJson(s.characters[id]), s)
  }

  /** POST /people. `newId` is the key the database assigns on insert. */
  function CreateCharacter(s: Store, body: Body, newId: int): (r: Reply)
    requires newId !in s.characters
    ensures r.status == 201 <==> "name" in body && "appearance" in body && "affiliation" in body
    ensures r.status != 201 ==> r == Reply(400, ErrorBody("Missing fields"), s)
    ensures r.status == 201 ==>
      && r.store.characters.Keys == s.characters.Keys + {newId}
      && (forall k :: k in s.characters ==> r.store.characters[k] == s.characters[k])
      && r.store.characters[newId] == Character(newId, body["name"], body["appearance"], body["affiliation"])
      && r.store.(characters := s.characters) == s
      && r.body == CharacterJson(r.store.characters[newId])
  {
    assert CharacterFields == ["name", "appearance", "affiliation"];
    if !HasAll(body, CharacterFields) then Reply(400, ErrorBody("Missing fields"), s)
    else
      assert CharacterFields[0] in body && CharacterFields[1] in body && CharacterFields[2] in body;
      var c := Character(newId, body["name"], body["appearance"], body["affiliation"]);
      Reply(201, CharacterJson(c), s.(characters := s.characters[newId := c]))
  }

  /** PUT /people/{id}: only the fields present in the body change. */
  function UpdateCharacter(s: Store, id: nat, body: Body): (r: Reply)
    ensures r.status == 200 <==> id in s.characters
    ensures id !in s.characters ==> r == Reply(404, ErrorBody("Character not found"), s)
    ensures id in s.characters ==>
      var c := s.characters[id];
      && r.store.characters.Keys == s.characters.Keys
      && (forall k :: k in s.characters && k != id ==> r.store.characters[k] == s.characters[k])
      && r.store.(characters := s.characters) == s
      && var d := r.store.characters[id];
      && d.id == c.id
      && d.name == (if "name" in body then body["name"] else c.name)
      && d.appearance == (if "appearance" in body then body["appearance"] else c.appearance)
      && d.affiliation == (if "affiliation" in body then body["affiliation"] else c.affiliation)
      && r.body == CharacterJson(d)
  {
    if id !in s.characters then Reply(404, ErrorBody("Character not found"), s)
    else
      var d := PatchCharacter(s.characters[id], body, CharacterFields);
      Reply(200, CharacterJson(d), s.(characters := s.characters[id := d]))
  }

  /** DELETE /people/{id}: exactly that character goes. */
  function DeleteCharacter(s: Store, id: nat): (r: Reply)
    ensures r.status == 200 <==> id in s.characters
    ensures id !in s.characters ==> r == Reply(404, ErrorBody("Character not found"), s)
    ensures id in s.characters ==>
      && r.body == MsgBody("Character is deleted")
      && r.store.characters.Keys == s.characters.Keys - {id}
      && (forall k :: k in r.store.characters ==> r.store.characters[k] == s.characters[k])
      && r.store.users == s.users && r.store.planets == s.planets && r.store.vehicles == s.vehicles
      && (forall f :: f in s.favorites && f.characterId != Some(id as int) ==> f in r.store.favorites)
      && |r.store.favorites| <= |s.favorites|
      && (forall f :: f in r.store.favorites ==>
            exists g :: g in s.favorites && f.(characterId := g.characterId) == g)
  {
    if id !in s.characters then Reply(404, ErrorBody("Character not found"), s)
    else Reply(200, MsgBody("Character is deleted"), s.(characters := s.characters - {id}))
  }

  // ---------------------------------------------------------------------------
  // Planets.

  /** GET /planets/{id}. */
  function GetOnePlanet(s: Store, id: nat): (r: Reply)
    ensures r.store == s
    ensures r.status == 200 <==> id in s.planets
    ensures id in s.planets ==> r.body == PlanetJson(s.planets[id])
    ensures id !in s.planets ==> r.status == 404 && r.body == ErrorBody("Planet not found")
  {
    if id !in s.planets then Reply(404, ErrorBody("Planet not found"), s)
    else Reply(200, PlanetJson(s.planets[id]), s)
  }

  /** POST /planets. `newId` is the key the database assigns on insert. */
  function CreatePlanet(s: Store, body: Body, newId: int): (r: Reply)
    requires newId !in s.planets
    ensures r.status == 201 <==> "name" in body && "appearance" in body && "terrain" in body && "climate" in body
    ensures r.status != 201 ==> r == Reply(400, ErrorBody("Missing fields"), s)
    ensures r.status == 201 ==>
      && r.store.planets.Keys == s.planets.Keys + {newId}
      && (forall k :: k in s.planets ==> r.store.planets[k] == s.planets[k])
      && r.store.planets[newId] == Planet(newId, body["name"], body["appearance"], body["terrain"], body["climate"])
      && r.store.(planets := s.planets) == s
      && r.body == PlanetJson(r.store.planets[newId])
  {
    assert PlanetFields == ["name", "appearance", "terrain", "climate"];
    if !HasAll(body, PlanetFields) then Reply(400, ErrorBody("Missing fields"), s)
    else
      assert PlanetFields[0] in body && PlanetFields[1] in body && PlanetFields[2] in body && PlanetFields[3] in body;
      var p := Planet(newId, body["name"], body["appearance"], body["terrain"], body["climate"]);
      Reply(201, PlanetJson(p), s.(planets := s.planets[newId := p]))
  }

  /** PUT /planets/{id}: only the fields present in the body change. */
  function UpdatePlanet(s: Store, id: nat, body: Body): (r: Reply)
    ensures r.status == 200 <==> id in s.planets
    ensures id !in s.planets ==> r == Reply(404, ErrorBody("Planet not found"), s)
    ensures id in s.planets ==>
      var p := s.planets[id];
      && r.store.planets.Keys == s.planets.Keys
      && (forall k :: k in s.planets && k != id ==> r.store.planets[k] == s.planets[k])
      && r.store.(planets := s.planets) == s
      && var q := r.store.planets[id];
      && q.id == p.id
      && q.name == (if "name" in body then body["name"] else p.name)
      && q.appearance == (if "appearance" in body then body["appearance"] else p.appearance)
      && q.terrain == (if "terrain" in body then body["terrain"] else p.terrain)
      && q.climate == (if "climate" in body then body["climate"] else p.climate)
      && r.body == PlanetJson(q)
  {
    if id !in s.planets then Reply(404, ErrorBody("Planet not found"), s)
    else
      var q := PatchPlanet(s.planets[id], body, PlanetFields);
      Reply(200, PlanetJson(q), s.(planets := s.planets[id := q]))
  }

  /** DELETE /planets/{id}: exactly that planet goes. */
  function DeletePlanet(s: Store, id: nat): (r: Reply)
    ensures r.status == 200 <==> id in s.planets
    ensures id !in s.planets ==> r == Reply(404, ErrorBody("Planet not found"), s)
    ensures id in s.planets ==>
      && r.body == MsgBody("Planet is deleted")
      && r.store.planets.Keys == s.planets.Keys - {id}
      && (forall k :: k in r.store.planets ==> r.store.planets[k] == s.planets[k])
      && r.store.users == s.users && r.store.characters == s.characters && r.store.vehicles == s.vehicles
      && (forall f :: f in s.favorites && f.planetId != Some(id as int) ==> f in r.store.favorites)
      && |r.store.favorites| <= |s.favorites|
      && (forall f :: f in r.store.favorites ==>
            exists g :: g in s.favorites && f.(planetId := g.planetId) == g)
  {
    if id !in s.planets then Reply(404, ErrorBody("Planet not found"), s)
    else Reply(200, MsgBody("Planet is deleted"), s.(planets := s.planets - {id}))
  }

  // ---------------------------------------------------------------------------
  // Properties across calls.

  /** A created planet reads back with the body's values under its new id. */
  lemma CreateThenGetPlanet(s: Store, body: Body, newId: nat)
    requires newId !in s.planets
    requires "name" in body && "appearance" in body && "terrain" in body && "climate" in body
    ensures var g := GetOnePlanet(CreatePlanet(s, body, newId).store, newId);
      && g.status == 200
      && ReadPlanet(g.body) == Some(Planet(newId, body["name"], body["appearance"], body["terrain"], body["climate"]))
  {
  }

  /** A created character reads back with the body's values under its new id. */
  lemma CreateThenGetPerson(s: Store, body: Body, newId: nat)
    requires newId !in s.characters
    requires "name" in body && "appearance" in body && "affiliation" in body
    ensures var g := GetOnePerson(CreateCharacter(s, body, newId).store, newId);
      && g.status == 200
      && ReadCharacter(g.body) == Some(Character(newId, body["name"], body["appearance"], body["affiliation"]))
  {
  }

  /** Sending the same patch twice has the effect of sending it once. */
  lemma UpdatePlanetIdempotent(s: Store, id: nat, body: Body)
    ensures UpdatePlanet(UpdatePlanet(s, id, body).store, id, body) == UpdatePlanet(s, id, body)
  {
  }

  /** Sending the same patch twice has the effect of sending it once. */
  lemma UpdateCharacterIdempotent(s: Store, id: nat, body: Body)
    ensures UpdateCharacter(UpdateCharacter(s, id, body).store, id, body) == UpdateCharacter(s, id, body)
  {
  }

  /** A patch with no fields changes nothing but still answers 200. */
  lemma EmptyPatchChangesNothing(s: Store, id: nat)
    ensures UpdatePlanet(s, id, map[]).store == s
    ensures UpdateCharacter(s, id, map[]).store == s
  {
  }

  /** The character endpoints keep the schema's constraints. */
  lemma CharacterHandlersKeepValid(s: Store, id: nat, body: Body, newId: nat)
    requires Valid(s)
    ensures newId !in s.characters ==> Valid(CreateCharacter(s, body, newId).store)
    ensures Valid(UpdateCharacter(s, id, body).store)
    ensures Valid(DeleteCharacter(s, id).store)
  {
  }

  /** Creating a planet keeps the schema's constraints. */
  lemma CreatePlanetKeepsValid(s: Store, body: Body, newId: nat)
    requires Valid(s) && newId !in s.planets
    ensures Valid(CreatePlanet(s, body, newId).store)
  {
  }

  /** Patching a planet keeps the schema's constraints. */
  lemma UpdatePlanetKeepsValid(s: Store, id: nat, body: Body)
    requires Valid(s)
    ensures Valid(UpdatePlanet(s, id, body).store)
  {
  }

  /** Deleting a planet keeps the schema's constraints. */
  lemma DeletePlanetKeepsValid(s: Store, id: nat)
    requires Valid(s)
    ensures Valid(DeletePlanet(s, id).store)
  {
  }
}

=== FILE: storage.dfy ===
/**
 The database as one immutable value: an ordered sequence of users, a map
 per keyed table, and the favorites in row order. Also the schema-level
 facts the ORM enforces: unique and required user columns, and the
 cascade that removes a user's favorites with the user.
 */
module Storage {
  import opened Wire
  import opened Models

  datatype Store = Store(
    users: seq<User>,
    characters: map<int, Character>,
    planets: map<int, Planet>,
    vehicles: map<int, Vehicle>,
    favorites: seq<Favorite>)

  /** What a handler returns: the HTTP status, the JSON body, and the
      store as the request leaves it. */
  datatype Reply = Reply(status: int, body: Json, store: Store)

  /** Some row of `users` has id `uid`: the foreign key of a favorite is valid. */
  ghost predicate HasUser(users: seq<User>, uid: int)
  {
    exists i :: 0 <= i < |users| && users[i].id == uid
  }

  /** Some row of `users` has email `email`. */
  predicate EmailTaken(users: seq<User>, email: string)
  {
    exists i :: 0 <= i < |users| && users[i].email == email
  }

  /** The schema's integrity constraints over a whole store. */
  ghost predicate Valid(s: Store)
  {
    && (forall i, j :: 0 <= i < j < |s.users| ==> s.users[i].id != s.users[j].id)
    && (forall i, j :: 0 <= i < j < |s.users| ==> s.users[i].email != s.users[j].email)
    && (forall k :: k in s.characters ==> s.characters[k].id == k)
    && (forall k :: k in s.planets ==> s.planets[k].id == k)
    && (forall k :: k in s.vehicles ==> s.vehicles[k].id == k)
    && (forall i :: 0 <= i < |s.favorites| ==> HasUser(s.users, s.favorites[i].userId))
    && (forall i, j :: 0 <= i < j < |s.favorites| ==> s.favorites[i].id != s.favorites[j].id)
  }

  /** No id the favorites table already uses. */
  predicate FreshFavoriteId(s: Store, id: int)
  {
    forall i :: 0 <= i < |s.favorites| ==> s.favorites[i].id != id
  }

  /** The stand-in for authentication: `User.query.first()`. The query has
      no ORDER BY, so this is the head of the user sequence, whatever order
      the store keeps. */
  function CurrentUser(s: Store): (u: Option<User>)
    ensures u.None? <==> |s.users| == 0
    ensures u.Some? ==> u.value == s.users[0]
    ensures u.Some? ==> HasUser(s.users, u.value.id)
  {
    if |s.users| == 0 then None else Some(s.users[0])
  }

  // ---------------------------------------------------------------------------
  // Favorite rows.

  /** What a favorite lookup is keyed on besides the user. */
  datatype Target = OnCharacter(characterId: int) | OnPlanet(planetId: int)

  /** `filter_by(user_id=uid, <target>_id=id)` for one row. */
  predicate Matches(f: Favorite, uid: int, t: Target)
  {
    && f.userId == uid
    && match t
       case OnCharacter(c) => f.characterId == Some(c)
       case OnPlanet(p) => f.planetId == Some(p)
  }

  /** `filter_by(...).first()`: the first matching row from position `from` on. */
  function FindFavorite(favs: seq<Favorite>, uid: int, t: Target, from: nat): (r: Option<nat>)
    requires from <= |favs|
    ensures r.Some? ==> from <= r.value < |favs| && Matches(favs[r.value], uid, t)
    ensures r.Some? ==> forall j :: from <= j < r.value ==> !Matches(favs[j], uid, t)
    ensures r.None? ==> forall j :: from <= j < |favs| ==> !Matches(favs[j], uid, t)
    decreases |favs| - from
  {
    if from == |favs| then None
    else if Matches(favs[from], uid, t) then Some(from)
    else FindFavorite(favs, uid, t, from + 1)
  }

  /** The rows of `favs` whose owner is `uid` (when `owned`) or is not
      `uid` (when not `owned`), in their original order. */
  function FavoritesWhere(favs: seq<Favorite>, uid: int, owned: bool): (r: seq<Favorite>)
    ensures |r| <= |favs|
    ensures forall f :: f in r <==> f in favs && (f.userId == uid) == owned
  {
    if |favs| == 0 then []
    else if (favs[0].userId == uid) == owned then [favs[0]] + FavoritesWhere(favs[1..], uid, owned)
    else FavoritesWhere(favs[1..], uid, owned)
  }

  /** Splitting the rows by owner loses and duplicates none of them. */
  lemma {:induction false} FavoritesPartition(favs: seq<Favorite>, uid: int)
    ensures multiset(FavoritesWhere(favs, uid, true)) + multiset(FavoritesWhere(favs, uid, false)) == multiset(favs)
    decreases |favs|
  {
    if |favs| > 0 {
      FavoritesPartition(favs[1..], uid);
      assert favs == [favs[0]] + favs[1..];
    }
  }

  /** `current_user.favorites`: the rows owned by `uid`. */
  function FavoritesOf(favs: seq<Favorite>, uid: int): (r: seq<Favorite>)
    ensures forall f :: f in r <==> f in favs && f.userId == uid
    ensures |r| <= |favs|
  {
    FavoritesWhere(favs, uid, true)
  }

  /** Deleting the row at `i`, the only change `db.session.delete` makes. */
  function RemoveAt(favs: seq<Favorite>, i: nat): (r: seq<Favorite>)
    requires i < |favs|
    ensures |r| == |favs| - 1
    ensures multiset(r) + multiset{favs[i]} == multiset(favs)
    ensures forall j :: 0 <= j < i ==> r[j] == favs[j]
    ensures forall j :: i <= j < |r| ==> r[j] == favs[j + 1]
  {
    assert favs == favs[..i] + [favs[i]] + favs[i + 1..];
    favs[..i] + favs[i + 1..]
  }

  // ---------------------------------------------------------------------------
  // The user table's constraints (no endpoint writes users; these are what
  // the schema guarantees of the rows that exist).

  datatype DbError = NotNullViolation(column: string) | UniqueViolation(column: string)

  /** Inserting a user row: every column is NOT NULL and email is UNIQUE. */
  function InsertUser(s: Store, id: int, email: Option<string>, password: Option<string>, isActive: Option<bool>)
    : (r: Result)
    requires forall i :: 0 <= i < |s.users| ==> s.users[i].id != id
    ensures email.None? ==> r == Refused(NotNullViolation("email"))
    ensures r.Inserted? <==> email.Some? && password.Some? && isActive.Some? && !EmailTaken(s.users, email.value)
    ensures r.Inserted? ==> r.store == s.(users := s.users + [User(id, email.value, password.value, isActive.value)])
    ensures r.Inserted? && Valid(s) ==> Valid(r.store)
  {
    if email.None? then Refused(NotNullViolation("email"))
    else if password.None? then Refused(NotNullViolation("password"))
    else if isActive.None? then Refused(NotNullViolation("is_active"))
    else if EmailTaken(s.users, email.value) then Refused(UniqueViolation("email"))
    else
      var s' := s.(users := s.users + [User(id, email.value, password.value, isActive.value)]);
      assert forall i :: 0 <= i < |s.favorites| ==> HasUser(s.users, s.favorites[i].userId) ==> HasUser(s'.users, s.favorites[i].userId) by {
        forall i | 0 <= i < |s.favorites| && HasUser(s.users, s.favorites[i].userId)
          ensures HasUser(s'.users, s.favorites[i].userId)
        {
          var k :| 0 <= k < |s.users| && s.users[k].id == s.favorites[i].userId;
          assert s'.users[k].id == s.favorites[i].userId;
        }
      }
      Inserted(s')
  }

  datatype Result = Inserted(store: Store) | Refused(error: DbError)

  /** Deleting user `uid` with the `all, delete-orphan` cascade: the user's
      rows and all its favorites go, every other row stays. */
  function DeleteUser(s: Store, uid: int): (r: Store)
    ensures forall f :: f in r.favorites <==> f in s.favorites && f.userId != uid
    ensures multiset(r.favorites) + multiset(FavoritesOf(s.favorites, uid)) == multiset(s.favorites)
    ensures forall u :: u in r.users <==> u in s.users && u.id != uid
    ensures r.characters == s.characters && r.planets == s.planets && r.vehicles == s.vehicles
  {
    FavoritesPartition(s.favorites, uid);
    s.(users := UsersNot(s.users, uid), favorites := FavoritesWhere(s.favorites, uid, false))
  }

  /** The user rows left once every row with id `uid` is deleted. */
  function UsersNot(users: seq<User>, uid: int): (r: seq<User>)
    ensures forall u :: u in r <==> u in users && u.id != uid
    ensures |r| <= |users|
  {
    if |users| == 0 then []
    else if users[0].id != uid then [users[0]] + UsersNot(users[1..], uid)
    else UsersNot(users[1..], uid)
  }

  /** No two rows share a favorite id. */
  ghost predicate DistinctFavoriteIds(favs: seq<Favorite>)
  {
    forall i, j :: 0 <= i < j < |favs| ==> favs[i].id != favs[j].id
  }

  /** No two rows share a user id, and no two share an email. */
  ghost predicate DistinctUsers(users: seq<User>)
  {
    && (forall i, j :: 0 <= i < j < |users| ==> users[i].id != users[j].id)
    && (forall i, j :: 0 <= i < j < |users| ==> users[i].email != users[j].email)
  }

  lemma {:induction false} FavoritesWhereKeepsDistinct(favs: seq<Favorite>, uid: int, owned: bool)
    requires DistinctFavoriteIds(favs)
    ensures DistinctFavoriteIds(FavoritesWhere(favs, uid, owned))
    decreases |favs|
  {
    if |favs| > 0 {
      FavoritesWhereKeepsDistinct(favs[1..], uid, owned);
      var rest := FavoritesWhere(favs[1..], uid, owned);
      if (favs[0].userId == uid) == owned {
        var r := [favs[0]] + rest;
        forall i, j | 0 <= i < j < |r| ensures r[i].id != r[j].id {
          if i == 0 {
            assert r[j] in favs[1..];
          } else {
            assert r[i] == rest[i - 1] && r[j] == rest[j - 1];
          }
        }
      }
    }
  }

  lemma {:induction false} UsersNotKeepsDistinct(users: seq<User>, uid: int)
    requires DistinctUsers(users)
    ensures DistinctUsers(UsersNot(users, uid))
    decreases |users|
  {
    if |users| > 0 {
      UsersNotKeepsDistinct(users[1..], uid);
      var rest := UsersNot(users[1..], uid);
      if users[0].id != uid {
        var r := [users[0]] + rest;
        forall i, j | 0 <= i < j < |r| ensures r[i].id != r[j].id && r[i].email != r[j].email {
          if i == 0 {
            assert r[j] in users[1..];
          } else {
            assert r[i] == rest[i - 1] && r[j] == rest[j - 1];
          }
        }
      }
    }
  }

  /** The cascade keeps the store consistent: every favorite left still
      points at a user that is left. */
  lemma DeleteUserKeepsValid(s: Store, uid: int)
    requires Valid(s)
    ensures Valid(DeleteUser(s, uid))
  {
    var r := DeleteUser(s, uid);
    assert DistinctUsers(s.users);
    UsersNotKeepsDistinct(s.users, uid);
    assert DistinctFavoriteIds(s.favorites);
    FavoritesWhereKeepsDistinct(s.favorites, uid, false);
    forall i | 0 <= i < |r.favorites| ensures HasUser(r.users, r.favorites[i].userId) {
      var f := r.favorites[i];
      assert f in s.favorites;
      var n :| 0 <= n < |s.favorites| && s.favorites[n] == f;
      var k :| 0 <= k < |s.users| && s.users[k].id == f.userId;
      assert s.users[k] in r.users;
      var m :| 0 <= m < |r.users| && r.users[m] == s.users[k];
    }
  }
}

=== FILE: wire.dfy ===
/**
 Values that cross the HTTP boundary: JSON responses, request bodies, and
 the small Option type the rest of the model uses for nullable columns.
 */
module Wire {

  /** A value that may be absent: a nullable column, an unset variable. */
  datatype Option<+T> = None | Some(value: T)

  /** A JSON value as the handlers hand it to `jsonify`. */
  datatype Json =
    | Null
    | Bool(b: bool)
    | Int(i: int)
    | Str(s: string)
    | Arr(items: seq<Json>)
    | Obj(fields: map<string, Json>)

  /** A request body that parsed to a JSON object. Values are copied into
      string columns unchecked, so they are modelled as strings. */
  type Body = map<string, string>

  /** The `{"error": message}` shape of every not-found and validation failure. */
  function ErrorBody(message: string): Json
  {
    Obj(map["error" := Str(message)])
  }

  /** The `{"msg": message}` shape of confirmations and of the duplicate-favorite refusal. */
  function MsgBody(message: string): Json
  {
    Obj(map["msg" := Str(message)])
  }

  /** A nullable integer column as JSON: `null` when unset. */
  function OptInt(o: Option<int>): Json
  {
    match o
    case None => Null
    case Some(v) => Int(v)
  }

  /** Reads back what `OptInt` wrote; `None` for anything else. */
  function ReadOptInt(j: Json): Option<Option<int>>
  {
    match j
    case Null => Some(None)
    case Int(v) => Some(Some(v))
    case _ => None
  }

  /** Python's `all(field in data for field in fields)`. */
  predicate HasAll(body: Body, fields: seq<string>)
  {
    forall i :: 0 <= i < |fields| ==> fields[i] in body
  }
}
